=== FILE: README.md ===
# volksdep benchmark: the run plan, engine choice and metric pass

This project models the decision logic of volksdep's `benchmark` module, which
compares a PyTorch model with TensorRT engines built from it at the fp32, fp16
and int8 precisions. The model treats the benchmark as a run-plan generator.
Every backend call is abstracted to the row it prints. Timing and metric
values stay opaque.

- `Dtypes` holds the three precisions, the allow-list `fp32`, `fp16`, `int8`
  and the PyTorch element-type table.
- `Engine` models the engine choice in `trt_benchmark`. The build source is
  checked first. The dtype then selects the `fp16_mode` / `int8_mode` flags and
  whether the calibrator is handed over.
- `Calibration` models the `int8_calibrator` argument and its resolution.
  Absent gives one fresh `EntropyCalibrator2`. A single calibrator gives a
  one-element list. A list or tuple is used as is. The model also covers the
  rebinding of the variable by the `for` loop at line 224: after an int8
  entry, the variable holds the last calibrator that ran.
- `RunPlan` models the `benchmark` driver. It validates every dtype before
  printing anything. It picks the metric column of the header. Then it walks
  the dtypes in request order and produces PyTorch rows, TensorRT rows and
  int8 rows labelled `int8(<class name>)`, or the error that stops the run.
- `RunPlanProperties` states whole-run properties:
  - the rows equal an independent per-dtype reference, in request order;
  - the row count;
  - an unknown build source fails only when the first TensorRT engine is configured;
  - only one default calibrator is ever built.
- `RunPlanScenarios` works out concrete runs.
- `MetricEvaluation` models `metric_evaluation`:
  - the placeholder `---` when the dataset or the metric is missing;
  - otherwise a fold over the dataset indices, where the first sample
    initialises the accumulators and later samples are concatenated onto them;
  - unwrapping of a one-element prediction list;
  - one call of the scoring function.

  Inference, tensor conversion and flattening are functions carried by the
  handle. The loop is written as a method and proved equal to a recursive
  reference fold.

Three behaviours of the code are easy to misread:

- The calibrator argument may be an empty list. It then resolves to no
  calibrator, so an int8 entry prints no row.
- A repeated `int8` entry runs only the last calibrator of the first one,
  because of the rebinding.
- The unsupported-handle error in the metric pass is raised inside the loop.
  An empty dataset therefore never raises it, and the metric scores two empty
  lists.

## Model

| member | source | states |
|---|---|---|
| Dtypes.Parse | volksdep/benchmark/benchmark.py:196-198 | exactly the names on the allow-list are recognised, each as the precision of that name |
| Dtypes.TorchDtypeOf | volksdep/benchmark/benchmark.py:24-28 | the PyTorch table's keys are exactly the allow-list, and each name maps to the element type of its precision |
| Engine.SourceOf | volksdep/benchmark/benchmark.py:117-122 | only "torch" and "onnx" name a build source, "torch" maps to building from the PyTorch model and "onnx" to building from the ONNX file; any other name is rejected |
| Engine.ConfigFor | volksdep/benchmark/benchmark.py:117-131 | an unknown build source is reported whatever the dtype; otherwise the engine runs at exactly the requested precision, fp16 and int8 flags are never both set, the calibrator is passed exactly when int8 mode is set, and an unknown dtype raises |
| Engine.CalibratorIgnoredUnlessInt8 | volksdep/benchmark/benchmark.py:124-129 | for every dtype other than int8 the calibrator argument has no influence on the engine configuration |
| Calibration.Resolve | volksdep/benchmark/benchmark.py:216-222 | absent gives one fresh default calibrator, one calibrator gives a one-element list, a list is used in its order; only an empty list resolves to nothing |
| Calibration.Rebind | volksdep/benchmark/benchmark.py:224-226 | after a non-empty int8 loop the variable holds the last calibrator run and resolves to it alone; after an empty loop nothing changes; one default is counted as built when the variable was absent |
| Calibration.RebindSettles | volksdep/benchmark/benchmark.py:216-224 | after the first int8 entry the variable is at a fixed point: later int8 entries neither change it nor what it resolves to |
| RunPlan.FirstInvalid | volksdep/benchmark/benchmark.py:196-198 | reports nothing exactly when every dtype is on the allow-list, and otherwise the first one in request order that is not |
| RunPlan.TrtRowFor | volksdep/benchmark/benchmark.py:225-229 | a TensorRT row exists exactly when the build source is known, and is built at its dtype with the calibrator only for int8 |
| RunPlan.Int8Rows | volksdep/benchmark/benchmark.py:224-226 | with a known source, one row per calibrator in order, labelled with its class name and built with it; with an unknown source no row, and an error exactly when there is a calibrator to run |
| RunPlan.DtypeStep | volksdep/benchmark/benchmark.py:208-229 | every row of one entry is well formed for the build source (PyTorch rows only for fp32/fp16 from "torch"); the only error is the build source, which never fires for a known one; float entries leave the calibrator variable alone |
| RunPlan.PlanRows | volksdep/benchmark/benchmark.py:208-229 | the same guarantees for the whole sequence of entries: all rows well formed, only the build-source error, no rows at all under an unknown source |
| RunPlan.Benchmark | volksdep/benchmark/benchmark.py:196-229 | no header exactly when some dtype is unsupported, and then no row and the first unsupported dtype as error; the header's metric column is the metric name or "---"; after the header the build-source error is the one error the plan tracks, and it never fires for a known source; every row's metric cell is evaluated exactly when dataset and metric are present |
| RunPlanProperties.PlanFollowsDtypeOrder | volksdep/benchmark/benchmark.py:208-229 | for valid dtypes and a known source the rows equal the concatenation, in request order, of each entry's reference block: PyTorch row (from "torch") then TensorRT row for fp32/fp16; all resolved calibrators for the first int8 entry; the last one, or none, for later ones |
| RunPlanProperties.RowCount | volksdep/benchmark/benchmark.py:208-229 | row count = float entries twice from "torch" (once otherwise) + resolved calibrators for the first int8 entry + one per later int8 entry unless the list was empty |
| RunPlanProperties.UnknownBuildFromFailsLazily | volksdep/benchmark/benchmark.py:205-229 | an unknown build source passes validation, the header is printed, no row follows, and the run fails exactly when some float dtype is requested or int8 is requested with anything but an empty calibrator list |
| RunPlanProperties.DefaultCalibratorBuiltOnce | volksdep/benchmark/benchmark.py:216-224 | when the caller passes only their own calibrators, every row built with a default calibrator uses the first and only one the run built: a repeated int8 entry reuses it |
| RunPlanScenarios.DefaultRun | volksdep/benchmark/benchmark.py:200-229 | fp32 then int8 from "torch" without calibrator or metric gives exactly a PyTorch fp32 row, a TensorRT fp32 row and a TensorRT int8(EntropyCalibrator2) row under the "---" column |
| RunPlanScenarios.DefaultArgumentsRun | volksdep/benchmark/benchmark.py:170-229 | the default arguments (build from "torch", dtypes fp32, fp16, int8, no calibrator, dataset or metric) give exactly five rows: PyTorch and TensorRT fp32, PyTorch and TensorRT fp16 (fp16 mode on), and TensorRT int8(EntropyCalibrator2) with the default calibrator, under the "---" column |
| RunPlanScenarios.RepeatedInt8ReusesLastCalibrator | volksdep/benchmark/benchmark.py:216-226 | with a list [a, b] and int8 requested twice the rows are int8(a), int8(b), int8(b) |
| RunPlanScenarios.EmptyCalibratorListRunsNothing | volksdep/benchmark/benchmark.py:216-229 | an empty calibrator list with only int8 entries prints the header and nothing else, even under an unknown build source |
| RunPlanScenarios.FirstUnsupportedDtypeReported | volksdep/benchmark/benchmark.py:196-205 | the first unsupported dtype is reported and nothing is printed, even after a supported one |
| MetricEvaluation.Infer | volksdep/benchmark/benchmark.py:40-49 | a PyTorch module succeeds exactly for a dtype in the table and then returns its forward pass at the table's element type (a dtype missing from the table raises), a TensorRT engine runs the input as is, any other handle raises its type |
| MetricEvaluation.DriverDtypesInfer | volksdep/benchmark/benchmark.py:40-49 | at every dtype the driver accepts, a module or an engine always infers, and a module runs at the element type of the dtype's width (fp32 to float32, fp16 to float16, int8 to int8) |
| MetricEvaluation.Cat | volksdep/benchmark/benchmark.py:56-57 | concatenation succeeds exactly for equally long lists and concatenates each position along the batch axis |
| MetricEvaluation.Unwrap | volksdep/benchmark/benchmark.py:58-59 | a one-element prediction list is replaced by its element; any other list is passed unchanged |
| MetricEvaluation.AccumulateColumns | volksdep/benchmark/benchmark.py:35-57 | accumulation succeeds exactly when every sample infers with the first sample's output and target arity; then prediction k is the k-th output of every sample and target k the k-th target element of every sample, in dataset order |
| MetricEvaluation.SingleSampleScoresItsPrediction | volksdep/benchmark/benchmark.py:52-61 | with one sample and an identity metric the score is that sample's prediction, unwrapped for a single output |
| MetricEvaluation.EvaluateMetric | volksdep/benchmark/benchmark.py:31-65 | placeholder, no dataset access and no metric call when dataset or metric is missing; otherwise equal to the reference fold, indices read in order, the metric called exactly once on success and never after an error, an error ending the reads at the first sample whose prefix fails to accumulate, and an unsupported handle on a non-empty dataset stopping at sample 0 |

## Left out

- Timing: the throughput and latency measurements (warm-up runs, synchronisation, wall-clock differences, the float division, the `int` truncation and the two-decimal rounding) are floating-point wall-clock arithmetic; rows carry no throughput or latency.
- Device plumbing: moving inputs between CPU and GPU, releasing memory and emptying the CUDA cache have no statable logic.
- Module recasting: the PyTorch runner recasts the caller's module in place (moved to the GPU, cast to the row's element type and put in eval mode, then moved back to the CPU), and the "torch" engine is later built from that same object. An engine built from "torch" therefore receives the module at the precision of the last PyTorch row before it (float16 for the fp16 and int8 engines under the default dtypes), or the module as passed when no PyTorch row came first. `EngineConfig` does not record the module's precision or device, because the module itself is opaque here.
- TensorRT engine construction, feeding and running, and the internals of the entropy calibrator are foreign library code; an engine is represented by the configuration it is built with.
- The tensor utilities module `volksdep/utils` (`to`, `gen_ones_data`, `add_batch_dim`, `flatten`, `cat`) is not part of this model, and its functions are taken as follows. Inference and flattening are opaque functions of the handle. `add_batch_dim` on a target is taken to give each element a leading axis of length one (`AddBatchDim`); on an input it is part of the handle's opaque inference. `cat` is taken to be positional concatenation along the batch axis that fails on a length mismatch.
- The numpy dtype table is defined but never read by the benchmark code, so it is not modelled.
- The printed table's fixed-width formatting, the framework version and input-shape columns, and `str()` of the metric value are formatting only; a row is a record.
- RunPlan.Benchmark: rows record whether the metric pass ran, not the metric value, because the value comes from the opaque model and metric; the value itself is stated by MetricEvaluation.EvaluateMetric.
- RunPlan.Benchmark: a `model` that is not a PyTorch module on the "torch" path fails inside PyTorch before the metric pass; that failure is foreign code and is not modelled.
- RunPlan.Benchmark: `iters` is not modelled; the plan assumes every backend run returns, that is iters > 0 and a non-zero elapsed time. In the source iters == 0, or an elapsed time of zero, raises a division by zero at the first backend row's latency or throughput, so the run aborts after the header with no row; the plan's `error.None?` for a known source does not cover that.
- RunPlan.Benchmark: errors raised inside the metric pass (an unsupported handle, a dtype missing from the PyTorch table, a structure mismatch while concatenating) abort the run after the header in the source; the plan does not carry them, because a row records only whether the metric pass ran. The metric pass's own errors are stated by MetricEvaluation.EvaluateMetric.
- RunPlanProperties.PlanFollowsDtypeOrder: its "no error" conclusion covers the build-source error only. Errors of the metric pass are not modelled in the plan, as stated for RunPlan.Benchmark. Nor is `iters`: the lemma assumes every backend run returns (iters > 0 and a non-zero elapsed time), while iters == 0 aborts after the header with no row.
- MetricEvaluation.AccumulateColumns: targets are taken to be a flat list of arrays; a bare-array or nested target structure, which the source batches and concatenates without flattening, is not modelled.
- Calibration.Resolve: calibrator lists are taken to hold calibrators; a list nested inside the list would be classified again at a repeated int8 entry, which is not modelled.

=== FILE: base.dfy ===
/** Shared vocabulary of the benchmark model: optional values, the errors the
    benchmark raises, and a failure-compatible result type carrying them. */
module Base {

  datatype Option<+T> = None | Some(value: T)

  /** One constructor per exception the benchmark code can raise. */
  datatype BenchError =
      /** a requested dtype outside the allow-list, raised by the driver before anything is printed */
    | UnsupportedDtype(dtype: string)
      /** a build source other than "torch" or "onnx", raised when a TensorRT engine is configured */
    | UnsupportedBuildFrom(buildFrom: string)
      /** a dtype the TensorRT engine configuration does not know */
    | UnsupportedEngineDtype(dtype: string)
      /** a handle that is neither a PyTorch module nor a TensorRT engine, raised by the metric pass */
    | UnsupportedModelType(typeName: string)
      /** the PyTorch dtype table has no entry for the dtype (a KeyError in the metric pass) */
    | UnknownTorchDtype(dtype: string)
      /** two accumulated output or target structures that cannot be concatenated positionally */
    | StructureMismatch

  /** Either a value or the error that aborted the computation. Usable with `:-`. */
  datatype Result<+T> = Ok(value: T) | Err(error: BenchError) {

    predicate IsFailure() {
      Err?
    }

    function PropagateFailure<U>(): Result<U>
      requires Err?
    {
      Err(error)
    }

    function Extract(): T
      requires Ok?
    {
      value
    }
  }
}

=== FILE: calibration.dfy ===
/** The int8 calibrator argument of the benchmark driver and the way the
    driver turns it into the list of calibrators it benchmarks. */
module Calibration {

  /** A calibrator object. `DefaultCalibrator(serial)` is the entropy
      calibrator the driver builds itself from the dummy input; `serial`
      counts the defaults built before it in the same run, so two defaults
      with different serials are different objects. Every calibrator the
      caller supplies is a `UserCalibrator`. */
  datatype Calibrator =
    | DefaultCalibrator(serial: nat)
    | UserCalibrator(className: string, id: nat)

  /** The class name of the calibrator the driver builds by default. */
  const DefaultClassName: string := "EntropyCalibrator2"

  /** The class name a calibrator is labelled with in the printed table. */
  function ClassName(c: Calibrator): string {
    match c
    case DefaultCalibrator(_) => DefaultClassName
    case UserCalibrator(name, _) => name
  }

  /** The value of the driver's `int8_calibrator` variable: absent, a single
      calibrator, or a list or tuple of calibrators. */
  datatype CalibArg =
    | NoCalibrator
    | OneCalibrator(calibrator: Calibrator)
    | CalibratorList(calibrators: seq<Calibrator>)

  /** The calibrator variable together with the number of default
      calibrators built so far. */
  datatype CalibState = CalibState(arg: CalibArg, defaultsMade: nat)

  /** The calibrators one int8 entry benchmarks, in order: a fresh default
      when the variable is absent, the one calibrator when it holds a single
      value, and the list itself when it holds a list. Only an empty list
      resolves to nothing. */
  function Resolve(st: CalibState): (cs: seq<Calibrator>)
    ensures cs == [] <==> st.arg == CalibratorList([])
    ensures st.arg.NoCalibrator? ==> cs == [DefaultCalibrator(st.defaultsMade)]
    ensures st.arg.OneCalibrator? ==> cs == [st.arg.calibrator]
    ensures st.arg.CalibratorList? ==> cs == st.arg.calibrators
  {
    match st.arg
    case NoCalibrator => [DefaultCalibrator(st.defaultsMade)]
    case OneCalibrator(c) => [c]
    case CalibratorList(cs) => cs
  }

  /** The state after the int8 loop: the loop variable shadows the argument,
      so a non-empty loop leaves the variable holding the last calibrator it
      ran, and an empty loop leaves it untouched. Resolving that state again
      yields at most that one last calibrator. */
  function Rebind(st: CalibState): (st': CalibState)
    ensures Resolve(st) != [] ==> st'.arg == OneCalibrator(Resolve(st)[|Resolve(st)| - 1])
    ensures Resolve(st) == [] ==> st' == st
    ensures st'.defaultsMade == st.defaultsMade + (if st.arg.NoCalibrator? then 1 else 0)
    ensures Resolve(st') == (if Resolve(st) == [] then [] else [Resolve(st)[|Resolve(st)| - 1]])
  {
    var cs := Resolve(st);
    var made := if st.arg.NoCalibrator? then st.defaultsMade + 1 else st.defaultsMade;
    if cs == [] then st else CalibState(OneCalibrator(cs[|cs| - 1]), made)
  }

  /** After the first int8 entry the variable has settled: rebinding again
      changes neither the variable nor what it resolves to. */
  lemma RebindSettles(st: CalibState)
    ensures Rebind(Rebind(st)).arg == Rebind(st).arg
    ensures Resolve(Rebind(Rebind(st))) == Resolve(Rebind(st))
  {
  }
}

=== FILE: dtypes.dfy ===
/** The three numeric precisions a benchmark run can request, and the lookup
    table that maps a precision name to the PyTorch element type. */
module Dtypes {
  import opened Base

  datatype Dtype = FP32 | FP16 | INT8

  /** The allow-list every requested dtype is checked against, in its source order. */
  const Supported: seq<string> := ["fp32", "fp16", "int8"]

  predicate IsSupported(s: string) {
    s in Supported
  }

  /** Recognises a dtype name; exactly the allow-listed names are recognised,
      and each is recognised as the precision that carries that name. */
  function Parse(s: string): (r: Option<Dtype>)
    ensures r.Some? <==> IsSupported(s)
    ensures r.Some? ==> Name(r.value) == s
  {
    if s == "fp32" then Some(FP32)
    else if s == "fp16" then Some(FP16)
    else if s == "int8" then Some(INT8)
    else None
  }

  /** The name a precision is requested and printed by; it is always on the allow-list. */
  function Name(d: Dtype): (s: string)
    ensures IsSupported(s)
  {
    match d
    case FP32 => "fp32"
    case FP16 => "fp16"
    case INT8 => "int8"
  }

  /** Naming a precision and parsing the name gives the precision back. */
  lemma ParseName(d: Dtype)
    ensures Parse(Name(d)) == Some(d)
  {
  }

  /** The PyTorch element types the table maps to. */
  datatype TorchDtype = Float32 | Float16 | Int8

  const TorchDtypes: map<string, TorchDtype> :=
    map["fp32" := Float32, "fp16" := Float16, "int8" := Int8]

  /** Looks a dtype name up in the PyTorch table. The table's keys are exactly
      the allow-list, and each precision maps to the element type of its width. */
  function TorchDtypeOf(s: string): (r: Option<TorchDtype>)
    ensures r.Some? <==> IsSupported(s)
    ensures r.Some? ==> (r.value == Float32 <==> Parse(s) == Some(FP32))
    ensures r.Some? ==> (r.value == Float16 <==> Parse(s) == Some(FP16))
    ensures r.Some? ==> (r.value == Int8 <==> Parse(s) == Some(INT8))
  {
    if s in TorchDtypes then Some(TorchDtypes[s]) else None
  }
}

=== FILE: engine.dfy ===
/** How the TensorRT runner chooses the engine it builds: the build source
    from `build_from`, then the precision flags from the dtype. */
module Engine {
  import opened Base
  import opened Dtypes

  /** `FromTorch` builds from the PyTorch model, and that build also receives
      the dummy input; `FromOnnx` builds from the serialized ONNX model alone. */
  datatype BuildSource = FromTorch | FromOnnx

  /** The arguments the engine constructor receives. `C` is whatever the
      caller passed as the int8 calibrator. */
  datatype EngineConfig<C> = EngineConfig(
    source: BuildSource,
    fp16Mode: bool,
    int8Mode: bool,
    int8Calibrator: Option<C>)

  /** The precision an engine configuration runs at, read off its flags. */
  function PrecisionOf<C>(cfg: EngineConfig<C>): Dtype {
    if cfg.int8Mode then INT8 else if cfg.fp16Mode then FP16 else FP32
  }

  /** The build source named by `build_from`; only "torch" and "onnx" name one. */
  function SourceOf(buildFrom: string): (r: Option<BuildSource>)
    ensures r.Some? <==> buildFrom == "torch" || buildFrom == "onnx"
    ensures r == Some(FromTorch) <==> buildFrom == "torch"
  {
    if buildFrom == "torch" then Some(FromTorch)
    else if buildFrom == "onnx" then Some(FromOnnx)
    else None
  }

  /** The engine configuration for one TensorRT run, or the error it raises.
      The build source is checked first: an unknown source is reported
      whatever the dtype. Then fp32 sets no flag, fp16 sets only the fp16
      flag, int8 sets only the int8 flag and hands over the calibrator, and
      any other dtype is rejected. */
  function ConfigFor<C>(buildFrom: string, dtype: string, calibrator: C): (r: Result<EngineConfig<C>>)
    ensures SourceOf(buildFrom).None? ==> r == Err(UnsupportedBuildFrom(buildFrom))
    ensures SourceOf(buildFrom).Some? && !IsSupported(dtype) ==> r == Err(UnsupportedEngineDtype(dtype))
    ensures r.Ok? <==> SourceOf(buildFrom).Some? && IsSupported(dtype)
    ensures r.Ok? ==> r.value.source == SourceOf(buildFrom).value
    ensures r.Ok? ==> Parse(dtype) == Some(PrecisionOf(r.value))
    ensures r.Ok? ==> !(r.value.fp16Mode && r.value.int8Mode)
    ensures r.Ok? ==> (r.value.int8Calibrator == Some(calibrator) <==> r.value.int8Mode)
    ensures r.Ok? ==> (r.value.int8Calibrator.None? <==> !r.value.int8Mode)
  {
    match SourceOf(buildFrom)
    case None => Err(UnsupportedBuildFrom(buildFrom))
    case Some(src) =>
      if dtype == "fp32" then Ok(EngineConfig(src, false, false, None))
      else if dtype == "fp16" then Ok(EngineConfig(src, true, false, None))
      else if dtype == "int8" then Ok(EngineConfig(src, false, true, Some(calibrator)))
      else Err(UnsupportedEngineDtype(dtype))
  }

  /** The calibrator argument reaches the engine only for int8: for every
      other dtype, any two calibrator arguments give the same outcome. */
  lemma CalibratorIgnoredUnlessInt8<C>(buildFrom: string, dtype: string, c1: C, c2: C)
    requires dtype != "int8"
    ensures ConfigFor(buildFrom, dtype, c1) == ConfigFor(buildFrom, dtype, c2)
  {
  }
}

=== FILE: metric_evaluation.dfy ===
/** The optional metric pass: run every dataset sample through the model or
    engine, accumulate predictions and targets sample after sample, and score
    them once. Inference, tensor conversion and flattening are opaque
    functions carried by the handle; an array is a sequence along its leading
    (batch) axis, so concatenating two batches is sequence concatenation. */
module MetricEvaluation {
  import opened Base
  import opened Dtypes

  /** An array viewed along its leading axis: one entry per sample. */
  type Batch<E> = seq<E>

  /** One dataset item: the model input and its targets, a flat list of
      elements. */
  datatype Sample<X, E> = Sample(input: X, target: seq<E>)

  /** What the pass is run against. A PyTorch module receives the input cast
      to the PyTorch element type of the dtype; a TensorRT engine receives it
      unchanged. Both return their outputs flattened to a list of batches.
      Any other object is only known by its type name. */
  datatype Handle<!X, E> =
    | TorchModule(forward: (X, TorchDtype) -> seq<Batch<E>>)
    | TrtEngine(inference: X -> seq<Batch<E>>)
    | OtherHandle(typeName: string)

  /** The predictions handed to the metric: a single output is unwrapped. */
  datatype Preds<E> = Unwrapped(single: Batch<E>) | Outputs(outputs: seq<Batch<E>>)

  /** A metric, seen through its scoring function over all predictions and
      all targets; its display name only reaches the header. */
  datatype Metric<!E, V> = Metric(score: (Preds<E>, seq<Batch<E>>) -> V)

  /** The metric column of a row: the placeholder or a computed score. */
  datatype MetricValue<V> = Placeholder | Scored(value: V)

  /** The two accumulators of the pass. */
  datatype Acc<E> = Acc(preds: seq<Batch<E>>, tgts: seq<Batch<E>>)

  /** Gives every target element a leading axis of length one. */
  function AddBatchDim<E>(elems: seq<E>): seq<Batch<E>> {
    seq(|elems|, k requires 0 <= k < |elems| => [elems[k]])
  }

  /** Runs one sample through the handle. The handle's kind is checked for
      every sample, and a PyTorch module also needs the dtype to be in its
      element-type table. */
  function Infer<X, E>(h: Handle<X, E>, dtype: string, x: X): (r: Result<seq<Batch<E>>>)
    ensures h.OtherHandle? ==> r == Err(UnsupportedModelType(h.typeName))
    ensures h.TrtEngine? ==> r == Ok(h.inference(x))
    ensures h.TorchModule? ==> (r.Ok? <==> IsSupported(dtype))
    ensures h.TorchModule? && !IsSupported(dtype) ==> r == Err(UnknownTorchDtype(dtype))
    ensures h.TorchModule? && IsSupported(dtype) ==> r == Ok(h.forward(x, TorchDtypeOf(dtype).value))
  {
    match h
    case TorchModule(forward) =>
      (match TorchDtypeOf(dtype)
       case None => Err(UnknownTorchDtype(dtype))
       case Some(td) => Ok(forward(x, td)))
    case TrtEngine(inference) => Ok(inference(x))
    case OtherHandle(name) => Err(UnsupportedModelType(name))
  }

  /** The driver only runs the metric pass at a dtype from the allow-list, so
      the PyTorch table lookup never fails there: a module or an engine always
      infers, and a module runs at the element type of the dtype's width. */
  lemma DriverDtypesInfer<X, E>(h: Handle<X, E>, d: Dtype, x: X)
    requires !h.OtherHandle?
    ensures Infer(h, Name(d), x).Ok?
    ensures h.TorchModule? ==>
      Infer(h, Name(d), x).value == h.forward(x, match d case FP32 => Float32 case FP16 => Float16 case INT8 => Int8)
  {
  }

  /** Positional concatenation of two lists of batches along the leading
      axis; lists of different lengths have different structures. */
  function Cat<E>(a: seq<Batch<E>>, b: seq<Batch<E>>): (r: Result<seq<Batch<E>>>)
    ensures r.Ok? <==> |a| == |b|
    ensures r.Ok? ==> |r.value| == |a| && forall k :: 0 <= k < |a| ==> r.value[k] == a[k] + b[k]
  {
    if |a| == |b| then Ok(seq(|a|, k requires 0 <= k < |a| => a[k] + b[k])) else Err(StructureMismatch)
  }

  /** Unwraps a one-element prediction list; any other list is passed as is. */
  function Unwrap<E>(preds: seq<Batch<E>>): (p: Preds<E>)
    ensures p.Unwrapped? <==> |preds| == 1
    ensures p.Unwrapped? ==> p.single == preds[0]
    ensures p.Outputs? ==> p.outputs == preds
  {
    if |preds| == 1 then Unwrapped(preds[0]) else Outputs(preds)
  }

  /** The accumulators after the first `n` samples: the first sample
      initialises them, every later one is concatenated onto them. */
  function Accumulate<X, E>(h: Handle<X, E>, dtype: string, samples: seq<Sample<X, E>>, n: nat): Result<Acc<E>>
    requires 1 <= n <= |samples|
    decreases n
  {
    if n == 1 then
      var outs :- Infer(h, dtype, samples[0].input);
      Ok(Acc(outs, AddBatchDim(samples[0].target)))
    else
      var acc :- Accumulate(h, dtype, samples, n - 1);
      var outs :- Infer(h, dtype, samples[n - 1].input);
      var preds :- Cat(acc.preds, outs);
      var tgts :- Cat(acc.tgts, AddBatchDim(samples[n - 1].target));
      Ok(Acc(preds, tgts))
  }

  /** The outcome of the pass over a present dataset with a present metric:
      the metric scores the accumulated predictions (unwrapped) and targets.
      An empty dataset scores two empty lists. */
  function Evaluation<X, E, V>(samples: seq<Sample<X, E>>, dtype: string, metric: Metric<E, V>, h: Handle<X, E>)
    : Result<MetricValue<V>>
  {
    if |samples| == 0 then Ok(Scored(metric.score(Outputs([]), [])))
    else
      var acc :- Accumulate(h, dtype, samples, |samples|);
      Ok(Scored(metric.score(Unwrap(acc.preds), acc.tgts)))
  }

  /** The outputs of the first `n` samples, when every one of them infers. */
  ghost predicate AllInfer<X, E>(h: Handle<X, E>, dtype: string, samples: seq<Sample<X, E>>, n: nat)
    requires n <= |samples|
  {
    forall i :: 0 <= i < n ==> Infer(h, dtype, samples[i].input).Ok?
  }

  ghost function OutputsOf<X, E>(h: Handle<X, E>, dtype: string, samples: seq<Sample<X, E>>, n: nat)
    : seq<seq<Batch<E>>>
    requires n <= |samples| && AllInfer(h, dtype, samples, n)
  {
    seq(n, i requires 0 <= i < n => Infer(h, dtype, samples[i].input).value)
  }

  /** The `k`-th output of every sample, concatenated in sample order. */
  ghost function ColumnOf<E>(outs: seq<seq<Batch<E>>>, k: nat): Batch<E>
    requires forall i :: 0 <= i < |outs| ==> k < |outs[i]|
  {
    if outs == [] then [] else ColumnOf(outs[..|outs| - 1], k) + outs[|outs| - 1][k]
  }

  /** The accumulation succeeds exactly when every sample infers and all
      samples have as many outputs, and as many target elements, as the first.
      Then the `k`-th prediction is the `k`-th output of every sample, and
      the `k`-th target the `k`-th target element of every sample, in order. */
  lemma {:induction false} AccumulateColumns<X, E>(h: Handle<X, E>, dtype: string, samples: seq<Sample<X, E>>, n: nat)
    requires 1 <= n <= |samples|
    ensures Accumulate(h, dtype, samples, n).Ok? <==>
      && AllInfer(h, dtype, samples, n)
      && (forall i :: 0 <= i < n ==>
            |Infer(h, dtype, samples[i].input).value| == |Infer(h, dtype, samples[0].input).value|)
      && (forall i :: 0 <= i < n ==> |samples[i].target| == |samples[0].target|)
    ensures Accumulate(h, dtype, samples, n).Ok? ==>
      var acc := Accumulate(h, dtype, samples, n).value;
      && |acc.preds| == |Infer(h, dtype, samples[0].input).value|
      && |acc.tgts| == |samples[0].target|
      && (forall k :: 0 <= k < |acc.preds| ==> acc.preds[k] == ColumnOf(OutputsOf(h, dtype, samples, n), k))
      && (forall k :: 0 <= k < |acc.tgts| ==> acc.tgts[k] == seq(n, i requires 0 <= i < n => samples[i].target[k]))
    decreases n
  {
    if n > 1 {
      AccumulateColumns(h, dtype, samples, n - 1);
      var prev := Accumulate(h, dtype, samples, n - 1);
      var last := Infer(h, dtype, samples[n - 1].input);
      if prev.Ok? && last.Ok? {
        var acc := prev.value;
        var outs := OutputsOf(h, dtype, samples, n);
        if |acc.preds| == |last.value| && |acc.tgts| == |samples[n - 1].target| {
          assert OutputsOf(h, dtype, samples, n - 1) == outs[..n - 1];
          var now := Accumulate(h, dtype, samples, n).value;
          forall k | 0 <= k < |now.tgts|
            ensures now.tgts[k] == seq(n, i requires 0 <= i < n => samples[i].target[k])
          {
            assert now.tgts[k] == acc.tgts[k] + [samples[n - 1].target[k]];
          }
        }
      }
    }
  }

  /** A failed accumulation stays failed, with the same error, whatever
      samples follow. */
  lemma {:induction false} AccumulateStaysFailed<X, E>(h: Handle<X, E>, dtype: string, samples: seq<Sample<X, E>>,
                                                       n: nat, m: nat)
    requires 1 <= n <= m <= |samples|
    requires Accumulate(h, dtype, samples, n).Err?
    ensures Accumulate(h, dtype, samples, m) == Accumulate(h, dtype, samples, n)
    decreases m - n
  {
    if m > n {
      AccumulateStaysFailed(h, dtype, samples, n, m - 1);
    }
  }

  /** One sample through an identity metric scores that sample's
      prediction, unwrapped when the model has a single output. */
  lemma SingleSampleScoresItsPrediction<X, E>(s: Sample<X, E>, dtype: string, h: Handle<X, E>)
    requires Infer(h, dtype, s.input).Ok?
    ensures var id := Metric((p: Preds<E>, t: seq<Batch<E>>) => p);
            Evaluation([s], dtype, id, h) == Ok(Scored(Unwrap(Infer(h, dtype, s.input).value)))
  {
  }

  /** The metric pass as the loop it is: placeholder and no work when the
      dataset or the metric is missing; otherwise each sample is fetched by
      index in order, the first error stops the pass before the metric is
      called, and a finished pass calls the metric exactly once. `fetched`
      lists the indices read from the dataset and `scoreCalls` the calls of
      the scoring function. */
  method EvaluateMetric<X, E, V>(dataset: Option<seq<Sample<X, E>>>, dtype: string,
                                 metric: Option<Metric<E, V>>, h: Handle<X, E>)
    returns (r: Result<MetricValue<V>>, fetched: seq<nat>, scoreCalls: nat)
    ensures dataset.None? || metric.None? ==> r == Ok(Placeholder) && fetched == [] && scoreCalls == 0
    ensures dataset.Some? && metric.Some? ==> r == Evaluation(dataset.value, dtype, metric.value, h)
    ensures r.Ok? && r.value.Scored? ==> scoreCalls == 1 && fetched == seq(|dataset.value|, i => i)
    ensures r.Err? ==> scoreCalls == 0 && |fetched| > 0 && fetched == seq(|fetched|, i => i)
    ensures r.Err? ==>
              && dataset.Some? && |fetched| <= |dataset.value|
              && Accumulate(h, dtype, dataset.value, |fetched|).Err?
              && (|fetched| > 1 ==> Accumulate(h, dtype, dataset.value, |fetched| - 1).Ok?)
    ensures dataset.Some? && metric.Some? && |dataset.value| > 0 && h.OtherHandle? ==>
              r == Err(UnsupportedModelType(h.typeName)) && fetched == [0]
  {
    if dataset.None? || metric.None? {
      return Ok(Placeholder), [], 0;
    }
    var samples := dataset.value;
    var preds: seq<Batch<E>> := [];
    var tgts: seq<Batch<E>> := [];
    fetched := [];
    var i := 0;
    while i < |samples|
      invariant 0 <= i <= |samples|
      invariant fetched == seq(i, j => j)
      invariant i == 0 ==> preds == [] && tgts == []
      invariant i > 0 ==> Accumulate(h, dtype, samples, i) == Ok(Acc(preds, tgts))
    {
      fetched := fetched + [i];
      var sample := samples[i];
      var targets := AddBatchDim(sample.target);
      var outs := Infer(h, dtype, sample.input);
      if outs.Err? {
        AccumulateStaysFailed(h, dtype, samples, i + 1, |samples|);
        return Err(outs.error), fetched, 0;
      }
      if i == 0 {
        preds := outs.value;
        tgts := targets;
      } else {
        var p := Cat(preds, outs.value);
        if p.Err? {
          AccumulateStaysFailed(h, dtype, samples, i + 1, |samples|);
          return Err(p.error), fetched, 0;
        }
        var t := Cat(tgts, targets);
        if t.Err? {
          AccumulateStaysFailed(h, dtype, samples, i + 1, |samples|);
          return Err(t.error), fetched, 0;
        }
        preds := p.value;
        tgts := t.value;
      }
      i := i + 1;
    }
    r := Ok(Scored(metric.value.score(Unwrap(preds), tgts)));
    scoreCalls := 1;
  }
}

=== FILE: run_plan.dfy ===
/** The benchmark driver as a run-plan generator: from the requested dtypes,
    the build source, the calibrator argument and the presence of a dataset
    and a metric, it produces the table header and the ordered rows the run
    prints, or the error that stops it. Every backend call is abstracted to
    the row it prints; timing and metric values stay opaque. */
module RunPlan {
  import opened Base
  import opened Dtypes
  import opened Engine
  import opened Calibration

  /** The metric column of a row: the placeholder, or a metric value computed
      by the metric pass (whose value this model leaves opaque). */
  datatype MetricCell = Placeholder | Evaluated

  /** One printed row; the constructor is its framework column. A TensorRT
      row records the engine configuration it is built with, including the
      calibrator argument the engine receives. */
  datatype Row =
    | TorchRow(dtype: Dtype, metric: MetricCell)
    | TrtRow(dtype: Dtype, dtypeText: string, engine: EngineConfig<CalibArg>, metric: MetricCell)
  {
    /** The text of the row's dtype column. */
    function Label(): string {
      if TorchRow? then Name(dtype) else dtypeText
    }
  }

  /** The calibrator an int8 TensorRT row is built with, if any. */
  function CalibratorOf(row: Row): Option<Calibrator> {
    if row.TrtRow? && row.engine.int8Calibrator.Some? && row.engine.int8Calibrator.value.OneCalibrator?
    then Some(row.engine.int8Calibrator.value.calibrator)
    else None
  }

  datatype Header = Header(metricColumn: string)

  /** The arguments of one benchmark call that decide its plan. `metric`
      holds the metric's display name when a metric is given. */
  datatype Request = Request(
    buildFrom: string,
    dtypes: seq<string>,
    calibrator: CalibArg,
    hasDataset: bool,
    metric: Option<string>)

  /** A call that gives only the model and the shape: build from "torch",
      all three dtypes in allow-list order, no calibrator, no dataset and
      no metric. */
  const DefaultRequest: Request := Request("torch", ["fp32", "fp16", "int8"], NoCalibrator, false, None)

  /** What a run prints before it ends: the header (absent when validation
      fails), the rows in print order, and the error that stopped it, if any. */
  datatype Report = Report(header: Option<Header>, rows: seq<Row>, error: Option<BenchError>)

  /** Rows printed by part of a run and the error that stopped it, if any. */
  datatype Partial = Partial(rows: seq<Row>, error: Option<BenchError>)

  /** Rows printed for one dtype entry, the error, and the calibrator state after it. */
  datatype Step = Step(rows: seq<Row>, error: Option<BenchError>, next: CalibState)

  /** The metric column shown when no metric is evaluated: three dashes. */
  const MetricPlaceholder: string := "---"

  function MetricColumn(req: Request): string {
    if !req.hasDataset || req.metric.None? then MetricPlaceholder else req.metric.value
  }

  function CellFor(req: Request): MetricCell {
    if !req.hasDataset || req.metric.None? then Placeholder else Evaluated
  }

  /** The dtype column of an int8 TensorRT row: the dtype and the calibrator's class name. */
  function Int8Label(c: Calibrator): string {
    "int8(" + ClassName(c) + ")"
  }

  /** What every row printed under build source `buildFrom` satisfies: its
      metric cell is the run's; PyTorch rows exist only for fp32 and fp16 with
      the "torch" source; TensorRT rows run at their own dtype on the named
      source; an int8 row is built with one calibrator and labelled with its
      class name; other TensorRT rows carry no calibrator and the plain dtype. */
  ghost predicate RowOk(buildFrom: string, cell: MetricCell, row: Row) {
    && row.metric == cell
    && (row.TorchRow? ==> buildFrom == "torch" && row.dtype != INT8)
    && (row.TrtRow? ==> SourceOf(buildFrom) == Some(row.engine.source) && PrecisionOf(row.engine) == row.dtype)
    && (row.TrtRow? && row.dtype == INT8 ==>
          CalibratorOf(row).Some? && row.dtypeText == Int8Label(CalibratorOf(row).value))
    && (row.TrtRow? && row.dtype != INT8 ==>
          row.dtypeText == Name(row.dtype) && row.engine.int8Calibrator.None?)
  }

  /** The first requested dtype outside the allow-list, in request order. */
  function FirstInvalid(dtypes: seq<string>): (r: Option<string>)
    ensures r.None? <==> forall i :: 0 <= i < |dtypes| ==> IsSupported(dtypes[i])
    ensures r.Some? ==> exists i :: 0 <= i < |dtypes| && dtypes[i] == r.value && !IsSupported(dtypes[i])
                                      && forall j :: 0 <= j < i ==> IsSupported(dtypes[j])
    decreases |dtypes|
  {
    if dtypes == [] then None
    else if !IsSupported(dtypes[0]) then Some(dtypes[0])
    else
      FirstInvalid(dtypes[1..])
  }

  /** The validated dtype names as precisions, in request order. */
  function ParseAll(dtypes: seq<string>): (ds: seq<Dtype>)
    requires forall i :: 0 <= i < |dtypes| ==> IsSupported(dtypes[i])
    ensures |ds| == |dtypes|
    ensures forall i :: 0 <= i < |ds| ==> Name(ds[i]) == dtypes[i]
  {
    seq(|dtypes|, i requires 0 <= i < |dtypes| => Parse(dtypes[i]).value)
  }

  /** One TensorRT run: its row, or the error configuring its engine raises. */
  function TrtRowFor(buildFrom: string, d: Dtype, text: string, arg: CalibArg, cell: MetricCell): (r: Result<Row>)
    ensures r.Ok? <==> SourceOf(buildFrom).Some?
    ensures r.Err? ==> r.error == UnsupportedBuildFrom(buildFrom)
    ensures r.Ok? ==>
      r.value == TrtRow(d, text, EngineConfig(SourceOf(buildFrom).value, d == FP16, d == INT8,
                                              if d == INT8 then Some(arg) else None), cell)
  {
    var cfg :- ConfigFor(buildFrom, Name(d), arg);
    Ok(TrtRow(d, text, cfg, cell))
  }

  /** The TensorRT rows of one int8 entry, one per calibrator in order, each
      built with that calibrator bound to the loop variable. With an unknown
      build source the first run raises, so no row is printed, and nothing
      raises when there is no calibrator to run. */
  function Int8Rows(buildFrom: string, cs: seq<Calibrator>, cell: MetricCell): (p: Partial)
    ensures SourceOf(buildFrom).Some? ==>
      && p.error.None?
      && |p.rows| == |cs|
      && forall k :: 0 <= k < |cs| ==>
           p.rows[k] == TrtRow(INT8, Int8Label(cs[k]),
                               EngineConfig(SourceOf(buildFrom).value, false, true, Some(OneCalibrator(cs[k]))), cell)
    ensures SourceOf(buildFrom).None? ==>
      && p.rows == []
      && (p.error.Some? <==> cs != [])
      && (p.error.Some? ==> p.error.value == UnsupportedBuildFrom(buildFrom))
    ensures forall k :: 0 <= k < |p.rows| ==> RowOk(buildFrom, cell, p.rows[k])
    decreases |cs|
  {
    if cs == [] then Partial([], None)
    else
      match TrtRowFor(buildFrom, INT8, Int8Label(cs[0]), OneCalibrator(cs[0]), cell)
      case Err(e) => Partial([], Some(e))
      case Ok(row) =>
        var rest := Int8Rows(buildFrom, cs[1..], cell);
        Partial([row] + rest.rows, rest.error)
  }

  /** The rows of one dtype entry: a PyTorch row first when the source is
      "torch" and the dtype is a float one; then, for int8, one TensorRT row
      per resolved calibrator, after which the variable is rebound; for the
      float dtypes, one TensorRT row receiving the variable as it stands. */
  function DtypeStep(buildFrom: string, d: Dtype, st: CalibState, cell: MetricCell): (s: Step)
    ensures forall j :: 0 <= j < |s.rows| ==> RowOk(buildFrom, cell, s.rows[j])
    ensures s.error.Some? ==> s.error.value == UnsupportedBuildFrom(buildFrom)
    ensures SourceOf(buildFrom).Some? ==> s.error.None?
    ensures SourceOf(buildFrom).None? ==> s.rows == []
    ensures d != INT8 ==> s.next == st
  {
    var torchRows := if buildFrom == "torch" && d != INT8 then [TorchRow(d, cell)] else [];
    if d == INT8 then
      var p := Int8Rows(buildFrom, Resolve(st), cell);
      Step(torchRows + p.rows, p.error, Rebind(st))
    else
      match TrtRowFor(buildFrom, d, Name(d), st.arg, cell)
      case Ok(row) => Step(torchRows + [row], None, st)
      case Err(e) => Step(torchRows, Some(e), st)
  }

  /** The rows of the dtype entries `ds`, in order, threading the calibrator
      variable through them; the first error stops the run. */
  function PlanRows(buildFrom: string, ds: seq<Dtype>, st: CalibState, cell: MetricCell): (p: Partial)
    ensures forall j :: 0 <= j < |p.rows| ==> RowOk(buildFrom, cell, p.rows[j])
    ensures p.error.Some? ==> p.error.value == UnsupportedBuildFrom(buildFrom)
    ensures SourceOf(buildFrom).Some? ==> p.error.None?
    ensures SourceOf(buildFrom).None? ==> p.rows == []
    decreases |ds|
  {
    if ds == [] then Partial([], None)
    else
      var s := DtypeStep(buildFrom, ds[0], st, cell);
      if s.error.Some? then Partial(s.rows, s.error)
      else
        var rest := PlanRows(buildFrom, ds[1..], s.next, cell);
        Partial(s.rows + rest.rows, rest.error)
  }

  /** One benchmark call. Every dtype is validated first: the first one off
      the allow-list stops the run before the header is printed. Otherwise the
      header is printed with the metric's name, or the placeholder when the
      dataset or the metric is missing, and the rows follow. After the header
      the error this plan tracks is an unknown build source, which stops the
      run at its first TensorRT row; errors of the metric pass are stated
      separately, by the metric evaluation. The repetition count and the
      timing are not part of the plan: every backend run is taken to
      return. */
  function Benchmark(req: Request): (r: Report)
    ensures r.header.None? <==> exists i :: 0 <= i < |req.dtypes| && !IsSupported(req.dtypes[i])
    ensures r.header.None? ==>
      && r.rows == []
      && r.error.Some? && r.error.value.UnsupportedDtype?
      && exists i :: 0 <= i < |req.dtypes| && req.dtypes[i] == r.error.value.dtype && !IsSupported(req.dtypes[i])
                     && forall j :: 0 <= j < i ==> IsSupported(req.dtypes[j])
    ensures r.header.Some? ==>
      r.header.value.metricColumn == (if req.hasDataset && req.metric.Some? then req.metric.value else MetricPlaceholder)
    ensures r.header.Some? && r.error.Some? ==> r.error.value == UnsupportedBuildFrom(req.buildFrom)
    ensures r.header.Some? && SourceOf(req.buildFrom).Some? ==> r.error.None?
    ensures forall j :: 0 <= j < |r.rows| ==> RowOk(req.buildFrom, CellFor(req), r.rows[j])
  {
    match FirstInvalid(req.dtypes)
    case Some(bad) => Report(None, [], Some(UnsupportedDtype(bad)))
    case None =>
      var p := PlanRows(req.buildFrom, ParseAll(req.dtypes), CalibState(req.calibrator, 0), CellFor(req));
      Report(Some(Header(MetricColumn(req))), p.rows, p.error)
  }
}

=== FILE: run_plan_properties.dfy ===
/** Properties of the benchmark run plan that relate whole runs: the rows
    follow an independent per-dtype reference, their number, the lazy
    build-source error, and the reuse of the one default calibrator. */
module RunPlanProperties {
  import opened Base
  import opened Dtypes
  import opened Engine
  import opened Calibration
  import opened RunPlan

  ghost function Concat(blocks: seq<seq<Row>>): seq<Row> {
    if blocks == [] then [] else blocks[0] + Concat(blocks[1..])
  }

  /** What the calibrator variable holds once the first int8 entry has run. */
  function SettledArg(arg0: CalibArg): CalibArg {
    Rebind(CalibState(arg0, 0)).arg
  }

  /** The rows of an fp32 or fp16 entry: a PyTorch row when building from
      "torch", then one TensorRT row with no calibrator. */
  ghost function FloatBlock(buildFrom: string, src: BuildSource, d: Dtype, cell: MetricCell): seq<Row> {
    (if buildFrom == "torch" then [TorchRow(d, cell)] else [])
    + [TrtRow(d, Name(d), EngineConfig(src, d == FP16, false, None), cell)]
  }

  /** One int8 TensorRT row per calibrator of `cs`, in order. */
  ghost function Int8Block(src: BuildSource, cs: seq<Calibrator>, cell: MetricCell): seq<Row> {
    seq(|cs|, k requires 0 <= k < |cs| =>
      TrtRow(INT8, Int8Label(cs[k]), EngineConfig(src, false, true, Some(OneCalibrator(cs[k]))), cell))
  }

  /** The rows one dtype entry should print. The first int8 entry runs every
      calibrator the argument resolves to; a later one runs only the last of
      them, or none when the argument was an empty list. */
  ghost function ExpectedBlock(buildFrom: string, src: BuildSource, arg0: CalibArg, cell: MetricCell,
                               d: Dtype, int8Before: bool): seq<Row>
  {
    if d != INT8 then FloatBlock(buildFrom, src, d, cell)
    else
      var cs := Resolve(CalibState(arg0, 0));
      Int8Block(src, if !int8Before then cs else if cs == [] then [] else [cs[|cs| - 1]], cell)
  }

  /** The reference plan: the blocks of the entries, in request order. */
  ghost function ExpectedRows(buildFrom: string, src: BuildSource, ds: seq<Dtype>, arg0: CalibArg,
                              cell: MetricCell, seen: bool): seq<Row>
  {
    Concat(seq(|ds|, i requires 0 <= i < |ds| =>
      ExpectedBlock(buildFrom, src, arg0, cell, ds[i], seen || INT8 in ds[..i])))
  }

  lemma {:induction false} ExpectedRowsUnfold(buildFrom: string, src: BuildSource, ds: seq<Dtype>,
                                              arg0: CalibArg, cell: MetricCell, seen: bool)
    requires ds != []
    ensures ExpectedRows(buildFrom, src, ds, arg0, cell, seen)
         == ExpectedBlock(buildFrom, src, arg0, cell, ds[0], seen)
            + ExpectedRows(buildFrom, src, ds[1..], arg0, cell, seen || ds[0] == INT8)
  {
    var f := seq(|ds|, i requires 0 <= i < |ds| =>
      ExpectedBlock(buildFrom, src, arg0, cell, ds[i], seen || INT8 in ds[..i]));
    var tl := ds[1..];
    var g := seq(|tl|, i requires 0 <= i < |tl| =>
      ExpectedBlock(buildFrom, src, arg0, cell, tl[i], (seen || ds[0] == INT8) || INT8 in tl[..i]));
    assert ds[..0] == [];
    forall i | 0 <= i < |g|
      ensures f[1..][i] == g[i]
    {
      assert ds[..i + 1] == [ds[0]] + tl[..i];
    }
    assert f[1..] == g;
  }

  lemma Int8StepRows(buildFrom: string, st: CalibState, cell: MetricCell)
    requires SourceOf(buildFrom).Some?
    ensures DtypeStep(buildFrom, INT8, st, cell)
         == Step(Int8Block(SourceOf(buildFrom).value, Resolve(st), cell), None, Rebind(st))
  {
    var p := Int8Rows(buildFrom, Resolve(st), cell);
    assert p.rows == Int8Block(SourceOf(buildFrom).value, Resolve(st), cell);
  }

  lemma FloatStepRows(buildFrom: string, d: Dtype, st: CalibState, cell: MetricCell)
    requires SourceOf(buildFrom).Some?
    requires d != INT8
    ensures DtypeStep(buildFrom, d, st, cell) == Step(FloatBlock(buildFrom, SourceOf(buildFrom).value, d, cell), None, st)
  {
  }

  /** Before the first int8 entry the variable resolves as the argument does;
      from then on it resolves to the last of those calibrators, or to nothing. */
  lemma SettledResolve(arg0: CalibArg, st: CalibState, seen: bool)
    requires !seen ==> st == CalibState(arg0, 0)
    requires seen ==> st.arg == SettledArg(arg0)
    ensures var cs0 := Resolve(CalibState(arg0, 0));
            Resolve(st) == (if !seen then cs0 else if cs0 == [] then [] else [cs0[|cs0| - 1]])
    ensures Rebind(st).arg == SettledArg(arg0)
  {
    if seen {
      assert Resolve(st) == Resolve(Rebind(CalibState(arg0, 0)));
    }
  }

  /** One dtype entry prints exactly its reference block and leaves the
      variable in the state the reference assumes for the rest. */
  lemma StepFollowsReference(buildFrom: string, d: Dtype, arg0: CalibArg, st: CalibState,
                             cell: MetricCell, seen: bool)
    requires SourceOf(buildFrom).Some?
    requires !seen ==> st == CalibState(arg0, 0)
    requires seen ==> st.arg == SettledArg(arg0)
    ensures DtypeStep(buildFrom, d, st, cell).error.None?
    ensures DtypeStep(buildFrom, d, st, cell).rows
         == ExpectedBlock(buildFrom, SourceOf(buildFrom).value, arg0, cell, d, seen)
    ensures var next := DtypeStep(buildFrom, d, st, cell).next;
            && (!(seen || d == INT8) ==> next == CalibState(arg0, 0))
            && ((seen || d == INT8) ==> next.arg == SettledArg(arg0))
  {
    SettledResolve(arg0, st, seen);
    if d == INT8 {
      Int8StepRows(buildFrom, st, cell);
    } else {
      FloatStepRows(buildFrom, d, st, cell);
    }
  }

  lemma {:induction false} PlanRowsFollowReference(buildFrom: string, ds: seq<Dtype>, arg0: CalibArg,
                                                   st: CalibState, cell: MetricCell, seen: bool)
    requires SourceOf(buildFrom).Some?
    requires !seen ==> st == CalibState(arg0, 0)
    requires seen ==> st.arg == SettledArg(arg0)
    ensures PlanRows(buildFrom, ds, st, cell)
         == Partial(ExpectedRows(buildFrom, SourceOf(buildFrom).value, ds, arg0, cell, seen), None)
    decreases |ds|
  {
    var src := SourceOf(buildFrom).value;
    if ds == [] {
      assert ExpectedRows(buildFrom, src, ds, arg0, cell, seen) == [];
    } else {
      var s := DtypeStep(buildFrom, ds[0], st, cell);
      StepFollowsReference(buildFrom, ds[0], arg0, st, cell, seen);
      PlanRowsFollowReference(buildFrom, ds[1..], arg0, s.next, cell, seen || ds[0] == INT8);
      ExpectedRowsUnfold(buildFrom, src, ds, arg0, cell, seen);
    }
  }

  /** With an allow-listed set of dtypes and a known build source, a run
      prints the header and then, for each requested dtype in request order,
      exactly the reference block of that dtype, and never raises the
      build-source error. */
  lemma PlanFollowsDtypeOrder(req: Request)
    requires forall i :: 0 <= i < |req.dtypes| ==> IsSupported(req.dtypes[i])
    requires SourceOf(req.buildFrom).Some?
    ensures Benchmark(req).header == Some(Header(MetricColumn(req)))
    ensures Benchmark(req).error.None?
    ensures Benchmark(req).rows
         == ExpectedRows(req.buildFrom, SourceOf(req.buildFrom).value, ParseAll(req.dtypes),
                         req.calibrator, CellFor(req), false)
  {
    PlanRowsFollowReference(req.buildFrom, ParseAll(req.dtypes), req.calibrator,
                            CalibState(req.calibrator, 0), CellFor(req), false);
  }

  function CountFloat(ds: seq<Dtype>): nat {
    if ds == [] then 0 else (if ds[0] != INT8 then 1 else 0) + CountFloat(ds[1..])
  }

  function CountInt8(ds: seq<Dtype>): nat {
    if ds == [] then 0 else (if ds[0] == INT8 then 1 else 0) + CountInt8(ds[1..])
  }

  /** The number of int8 rows of `k` int8 entries when the argument resolves
      to `n0` calibrators: all of them for the first entry, and one (the last)
      for each later entry unless the argument was an empty list. */
  function Int8RowCount(n0: nat, k: nat, seen: bool): nat {
    var later := if n0 == 0 then 0 else 1;
    if k == 0 then 0 else if seen then k * later else n0 + (k - 1) * later
  }

  lemma {:induction false} PlanRowsCount(buildFrom: string, ds: seq<Dtype>, arg0: CalibArg,
                                         st: CalibState, cell: MetricCell, seen: bool)
    requires SourceOf(buildFrom).Some?
    requires !seen ==> st == CalibState(arg0, 0)
    requires seen ==> st.arg == SettledArg(arg0)
    ensures |PlanRows(buildFrom, ds, st, cell).rows|
         == (if buildFrom == "torch" then CountFloat(ds) else 0) + CountFloat(ds)
            + Int8RowCount(|Resolve(CalibState(arg0, 0))|, CountInt8(ds), seen)
    decreases |ds|
  {
    if ds != [] {
      var s := DtypeStep(buildFrom, ds[0], st, cell);
      var n0 := |Resolve(CalibState(arg0, 0))|;
      StepFollowsReference(buildFrom, ds[0], arg0, st, cell, seen);
      BlockLength(buildFrom, SourceOf(buildFrom).value, arg0, cell, ds[0], seen);
      PlanRowsCount(buildFrom, ds[1..], arg0, s.next, cell, seen || ds[0] == INT8);
      if ds[0] == INT8 {
        Int8RowCountStep(n0, CountInt8(ds[1..]), seen);
      }
    }
  }

  /** The length of one reference block. */
  lemma BlockLength(buildFrom: string, src: BuildSource, arg0: CalibArg, cell: MetricCell, d: Dtype, int8Before: bool)
    ensures |ExpectedBlock(buildFrom, src, arg0, cell, d, int8Before)|
         == (if d != INT8 then (if buildFrom == "torch" then 2 else 1)
             else if !int8Before then |Resolve(CalibState(arg0, 0))|
             else if Resolve(CalibState(arg0, 0)) == [] then 0 else 1)
  {
  }

  /** One more int8 entry adds all resolved calibrators when it is the first,
      and otherwise one row unless the argument was an empty list. */
  lemma Int8RowCountStep(n0: nat, k: nat, seen: bool)
    ensures Int8RowCount(n0, k + 1, seen)
         == (if seen then (if n0 == 0 then 0 else 1) else n0) + Int8RowCount(n0, k, true)
  {
  }

  /** The number of rows of a run that does not fail: each fp32 or fp16
      entry gives a TensorRT row and, when building from "torch", a PyTorch
      row; the first int8 entry gives one row per resolved calibrator and
      every later one gives one row, or none for an empty calibrator list. */
  lemma RowCount(req: Request)
    requires forall i :: 0 <= i < |req.dtypes| ==> IsSupported(req.dtypes[i])
    requires SourceOf(req.buildFrom).Some?
    ensures |Benchmark(req).rows|
         == (if req.buildFrom == "torch" then CountFloat(ParseAll(req.dtypes)) else 0)
            + CountFloat(ParseAll(req.dtypes))
            + Int8RowCount(|Resolve(CalibState(req.calibrator, 0))|, CountInt8(ParseAll(req.dtypes)), false)
  {
    PlanRowsCount(req.buildFrom, ParseAll(req.dtypes), req.calibrator,
                  CalibState(req.calibrator, 0), CellFor(req), false);
  }

  lemma {:induction false} UnknownSourceGeneral(buildFrom: string, ds: seq<Dtype>, st: CalibState, cell: MetricCell)
    requires SourceOf(buildFrom).None?
    ensures PlanRows(buildFrom, ds, st, cell).error.Some?
        <==> (exists i :: 0 <= i < |ds| && ds[i] != INT8) || (INT8 in ds && Resolve(st) != [])
    decreases |ds|
  {
    if ds != [] {
      var s := DtypeStep(buildFrom, ds[0], st, cell);
      UnknownSourceGeneral(buildFrom, ds[1..], s.next, cell);
      if ds[0] == INT8 && Resolve(st) == [] {
        assert s.next == st;
        assert forall i :: 1 <= i < |ds| ==> ds[i] == ds[1..][i - 1];
      } else if ds[0] != INT8 {
        assert s.error.Some?;
      }
    }
  }

  /** An unknown build source is not caught by validation: the header is
      printed, no row follows, and the run fails exactly when some TensorRT
      engine is configured, that is when a float dtype is requested or an
      int8 dtype is requested with a calibrator argument other than an empty
      list. */
  lemma UnknownBuildFromFailsLazily(req: Request)
    requires forall i :: 0 <= i < |req.dtypes| ==> IsSupported(req.dtypes[i])
    requires SourceOf(req.buildFrom).None?
    ensures Benchmark(req).header == Some(Header(MetricColumn(req)))
    ensures Benchmark(req).rows == []
    ensures Benchmark(req).error.Some?
        <==> (exists i :: 0 <= i < |req.dtypes| && req.dtypes[i] != "int8")
             || ("int8" in req.dtypes && req.calibrator != CalibratorList([]))
    ensures Benchmark(req).error.Some? ==> Benchmark(req).error.value == UnsupportedBuildFrom(req.buildFrom)
  {
    var ds := ParseAll(req.dtypes);
    UnknownSourceReport(req);
    UnknownSourceGeneral(req.buildFrom, ds, CalibState(req.calibrator, 0), CellFor(req));
    ParsedInt8Positions(req.dtypes);
    assert (exists i :: 0 <= i < |ds| && ds[i] != INT8) <==> (exists i :: 0 <= i < |req.dtypes| && req.dtypes[i] != "int8");
    assert INT8 in ds <==> "int8" in req.dtypes by {
      assert INT8 in ds <==> exists i :: 0 <= i < |ds| && ds[i] == INT8;
      assert "int8" in req.dtypes <==> exists i :: 0 <= i < |req.dtypes| && req.dtypes[i] == "int8";
    }
  }

  /** Under an unknown source the report is the header, no row, and the
      plan's outcome. */
  lemma UnknownSourceReport(req: Request)
    requires forall i :: 0 <= i < |req.dtypes| ==> IsSupported(req.dtypes[i])
    requires SourceOf(req.buildFrom).None?
    ensures Benchmark(req)
         == Report(Some(Header(MetricColumn(req))), [],
                   PlanRows(req.buildFrom, ParseAll(req.dtypes), CalibState(req.calibrator, 0), CellFor(req)).error)
  {
    assert FirstInvalid(req.dtypes).None?;
  }

  /** Parsing keeps the positions of the int8 entries. */
  lemma ParsedInt8Positions(dtypes: seq<string>)
    requires forall i :: 0 <= i < |dtypes| ==> IsSupported(dtypes[i])
    ensures forall i :: 0 <= i < |dtypes| ==> (ParseAll(dtypes)[i] == INT8 <==> dtypes[i] == "int8")
  {
    var ds := ParseAll(dtypes);
    forall i | 0 <= i < |ds| ensures ds[i] == INT8 <==> dtypes[i] == "int8" {
      assert Name(ds[i]) == dtypes[i];
    }
  }

  /** No calibrator the caller passes is one the driver built itself. */
  predicate UserSupplied(arg: CalibArg) {
    match arg
    case NoCalibrator => true
    case OneCalibrator(c) => c.UserCalibrator?
    case CalibratorList(cs) => forall k :: 0 <= k < |cs| ==> cs[k].UserCalibrator?
  }

  /** Every default calibrator the state can resolve to is the first one built. */
  ghost predicate OnlyFirstDefault(st: CalibState) {
    forall k :: 0 <= k < |Resolve(st)| && Resolve(st)[k].DefaultCalibrator? ==> Resolve(st)[k].serial == 0
  }

  /** Every row built with a default calibrator uses the first one built. */
  ghost predicate ReusesFirstDefault(rows: seq<Row>) {
    forall j :: 0 <= j < |rows| && CalibratorOf(rows[j]).Some? && CalibratorOf(rows[j]).value.DefaultCalibrator?
      ==> CalibratorOf(rows[j]).value == DefaultCalibrator(0)
  }

  lemma RebindKeepsFirstDefault(st: CalibState)
    requires OnlyFirstDefault(st)
    ensures OnlyFirstDefault(Rebind(st))
  {
  }

  lemma Int8BlockCalibrators(src: BuildSource, cs: seq<Calibrator>, cell: MetricCell)
    ensures |Int8Block(src, cs, cell)| == |cs|
    ensures forall k :: 0 <= k < |cs| ==> CalibratorOf(Int8Block(src, cs, cell)[k]) == Some(cs[k])
  {
  }

  /** A float entry configures no engine with a calibrator. */
  lemma FloatStepHasNoCalibrator(buildFrom: string, d: Dtype, st: CalibState, cell: MetricCell)
    requires d != INT8
    ensures forall k :: 0 <= k < |DtypeStep(buildFrom, d, st, cell).rows| ==>
      CalibratorOf(DtypeStep(buildFrom, d, st, cell).rows[k]).None?
  {
    var rows := DtypeStep(buildFrom, d, st, cell).rows;
    assert forall k :: 0 <= k < |rows| ==> RowOk(buildFrom, cell, rows[k]);
  }

  lemma StepReusesDefault(buildFrom: string, d: Dtype, st: CalibState, cell: MetricCell)
    requires OnlyFirstDefault(st)
    ensures OnlyFirstDefault(DtypeStep(buildFrom, d, st, cell).next)
    ensures ReusesFirstDefault(DtypeStep(buildFrom, d, st, cell).rows)
  {
    var s := DtypeStep(buildFrom, d, st, cell);
    if d == INT8 {
      RebindKeepsFirstDefault(st);
      if SourceOf(buildFrom).Some? {
        Int8StepRows(buildFrom, st, cell);
        Int8BlockCalibrators(SourceOf(buildFrom).value, Resolve(st), cell);
      }
    } else {
      FloatStepHasNoCalibrator(buildFrom, d, st, cell);
    }
  }

  lemma {:induction false} PlanRowsReuseDefault(buildFrom: string, ds: seq<Dtype>, st: CalibState, cell: MetricCell)
    requires OnlyFirstDefault(st)
    ensures ReusesFirstDefault(PlanRows(buildFrom, ds, st, cell).rows)
    decreases |ds|
  {
    if ds != [] {
      var s := DtypeStep(buildFrom, ds[0], st, cell);
      StepReusesDefault(buildFrom, ds[0], st, cell);
      if s.error.None? {
        var rest := PlanRows(buildFrom, ds[1..], s.next, cell).rows;
        PlanRowsReuseDefault(buildFrom, ds[1..], s.next, cell);
        assert PlanRows(buildFrom, ds, st, cell).rows == s.rows + rest;
      }
    }
  }

  /** The driver builds at most one default calibrator per run: a repeated
      int8 entry reuses the default the first one built (through the rebound
      loop variable) instead of building another. */
  lemma DefaultCalibratorBuiltOnce(req: Request)
    requires UserSupplied(req.calibrator)
    ensures ReusesFirstDefault(Benchmark(req).rows)
  {
    if FirstInvalid(req.dtypes).None? {
      var st := CalibState(req.calibrator, 0);
      assert OnlyFirstDefault(st);
      PlanRowsReuseDefault(req.buildFrom, ParseAll(req.dtypes), st, CellFor(req));
      assert Benchmark(req).rows == PlanRows(req.buildFrom, ParseAll(req.dtypes), st, CellFor(req)).rows;
    }
  }
}

=== FILE: run_plan_scenarios.dfy ===
/** Concrete runs of the benchmark driver, worked out from the model. */
module RunPlanScenarios {
  import opened Base
  import opened Dtypes
  import opened Engine
  import opened Calibration
  import opened RunPlan
  import RunPlanProperties

  lemma DefaultRunFloatStep()
    ensures DtypeStep("torch", FP32, CalibState(NoCalibrator, 0), Placeholder)
         == Step([TorchRow(FP32, Placeholder),
                  TrtRow(FP32, "fp32", EngineConfig(FromTorch, false, false, None), Placeholder)],
                 None, CalibState(NoCalibrator, 0))
  {
    RunPlanProperties.FloatStepRows("torch", FP32, CalibState(NoCalibrator, 0), Placeholder);
  }

  /** The first int8 entry with no calibrator argument runs the one default. */
  lemma DefaultCalibratorStep(buildFrom: string, cell: MetricCell)
    requires SourceOf(buildFrom).Some?
    ensures DtypeStep(buildFrom, INT8, CalibState(NoCalibrator, 0), cell).error.None?
    ensures DtypeStep(buildFrom, INT8, CalibState(NoCalibrator, 0), cell).rows
         == [TrtRow(INT8, Int8Label(DefaultCalibrator(0)),
                    EngineConfig(SourceOf(buildFrom).value, false, true, Some(OneCalibrator(DefaultCalibrator(0)))),
                    cell)]
  {
    var st := CalibState(NoCalibrator, 0);
    assert Resolve(st) == [DefaultCalibrator(0)];
    RunPlanProperties.Int8StepRows(buildFrom, st, cell);
  }

  /** The label of a row built with the default calibrator. */
  lemma DefaultCalibratorLabel()
    ensures Int8Label(DefaultCalibrator(0)) == "int8(EntropyCalibrator2)"
  {
    assert ClassName(DefaultCalibrator(0)) == "EntropyCalibrator2";
  }

  /** The two entries of the fp32-then-int8 run. */
  lemma DefaultRunPlan()
    ensures PlanRows("torch", [FP32, INT8], CalibState(NoCalibrator, 0), Placeholder)
         == Partial([ TorchRow(FP32, Placeholder),
                      TrtRow(FP32, "fp32", EngineConfig(FromTorch, false, false, None), Placeholder),
                      TrtRow(INT8, "int8(EntropyCalibrator2)",
                             EngineConfig(FromTorch, false, true, Some(OneCalibrator(DefaultCalibrator(0)))),
                             Placeholder) ],
                    None)
  {
    DefaultRunFloatStep();
    DefaultInt8Plan();
    assert [FP32, INT8][1..] == [INT8];
  }

  /** fp32 then int8, building from "torch", no calibrator, no dataset or
      metric: a PyTorch fp32 row, a TensorRT fp32 row and one TensorRT int8
      row with the default calibrator, all under the placeholder column. */
  lemma DefaultRun(req: Request)
    requires req == Request("torch", ["fp32", "int8"], NoCalibrator, false, None)
    ensures Benchmark(req)
         == Report(Some(Header("---")),
                   [ TorchRow(FP32, Placeholder),
                     TrtRow(FP32, "fp32", EngineConfig(FromTorch, false, false, None), Placeholder),
                     TrtRow(INT8, "int8(EntropyCalibrator2)",
                            EngineConfig(FromTorch, false, true, Some(OneCalibrator(DefaultCalibrator(0)))),
                            Placeholder) ],
                   None)
  {
    DefaultRunPlan();
    assert FirstInvalid(req.dtypes) == None;
    assert ParseAll(req.dtypes) == [FP32, INT8];
  }

  /** The fp16 entry of a run with the default arguments. */
  lemma DefaultArgumentsHalfStep()
    ensures DtypeStep("torch", FP16, CalibState(NoCalibrator, 0), Placeholder)
         == Step([TorchRow(FP16, Placeholder),
                  TrtRow(FP16, "fp16", EngineConfig(FromTorch, true, false, None), Placeholder)],
                 None, CalibState(NoCalibrator, 0))
  {
    RunPlanProperties.FloatStepRows("torch", FP16, CalibState(NoCalibrator, 0), Placeholder);
  }

  /** A first int8 entry from "torch" with no calibrator argument, as a plan. */
  lemma DefaultInt8Plan()
    ensures PlanRows("torch", [INT8], CalibState(NoCalibrator, 0), Placeholder)
         == Partial([TrtRow(INT8, "int8(EntropyCalibrator2)",
                            EngineConfig(FromTorch, false, true, Some(OneCalibrator(DefaultCalibrator(0)))),
                            Placeholder)],
                    None)
  {
    DefaultCalibratorStep("torch", Placeholder);
    DefaultCalibratorLabel();
  }

  /** The fp16 and int8 entries of a run with the default arguments. */
  lemma DefaultArgumentsTailPlan()
    ensures PlanRows("torch", [FP16, INT8], CalibState(NoCalibrator, 0), Placeholder)
         == Partial([ TorchRow(FP16, Placeholder),
                      TrtRow(FP16, "fp16", EngineConfig(FromTorch, true, false, None), Placeholder),
                      TrtRow(INT8, "int8(EntropyCalibrator2)",
                             EngineConfig(FromTorch, false, true, Some(OneCalibrator(DefaultCalibrator(0)))),
                             Placeholder) ],
                    None)
  {
    DefaultArgumentsHalfStep();
    DefaultInt8Plan();
    assert [FP16, INT8][1..] == [INT8];
  }

  /** The three entries of a run with the default arguments. */
  lemma DefaultArgumentsPlan()
    ensures PlanRows("torch", [FP32, FP16, INT8], CalibState(NoCalibrator, 0), Placeholder)
         == Partial([ TorchRow(FP32, Placeholder),
                      TrtRow(FP32, "fp32", EngineConfig(FromTorch, false, false, None), Placeholder),
                      TorchRow(FP16, Placeholder),
                      TrtRow(FP16, "fp16", EngineConfig(FromTorch, true, false, None), Placeholder),
                      TrtRow(INT8, "int8(EntropyCalibrator2)",
                             EngineConfig(FromTorch, false, true, Some(OneCalibrator(DefaultCalibrator(0)))),
                             Placeholder) ],
                    None)
  {
    DefaultRunFloatStep();
    DefaultArgumentsTailPlan();
    assert [FP32, FP16, INT8][1..] == [FP16, INT8];
  }

  /** The default arguments: PyTorch and TensorRT rows for fp32, then for
      fp16, then one TensorRT int8 row with the default calibrator, all under
      the placeholder column. */
  lemma DefaultArgumentsRun()
    ensures Benchmark(DefaultRequest)
         == Report(Some(Header("---")),
                   [ TorchRow(FP32, Placeholder),
                     TrtRow(FP32, "fp32", EngineConfig(FromTorch, false, false, None), Placeholder),
                     TorchRow(FP16, Placeholder),
                     TrtRow(FP16, "fp16", EngineConfig(FromTorch, true, false, None), Placeholder),
                     TrtRow(INT8, "int8(EntropyCalibrator2)",
                            EngineConfig(FromTorch, false, true, Some(OneCalibrator(DefaultCalibrator(0)))),
                            Placeholder) ],
                   None)
  {
    DefaultArgumentsPlan();
    assert FirstInvalid(DefaultRequest.dtypes) == None;
    assert ParseAll(DefaultRequest.dtypes) == [FP32, FP16, INT8];
  }

  /** A calibrator list [a, b] with int8 requested twice: the first int8
      entry runs a then b; the loop variable now holds b, so the second entry
      runs b alone. */
  lemma RepeatedInt8ReusesLastCalibrator(a: Calibrator, b: Calibrator)
    ensures var rows := Benchmark(Request("onnx", ["int8", "int8"], CalibratorList([a, b]), false, None)).rows;
            && |rows| == 3
            && rows[0].Label() == Int8Label(a)
            && rows[1].Label() == Int8Label(b)
            && rows[2].Label() == Int8Label(b)
            && CalibratorOf(rows[2]) == Some(b)
  {
    var req := Request("onnx", ["int8", "int8"], CalibratorList([a, b]), false, None);
    assert FirstInvalid(req.dtypes) == None;
    assert ParseAll(req.dtypes) == [INT8, INT8];
    var st := CalibState(CalibratorList([a, b]), 0);
    var s1 := DtypeStep("onnx", INT8, st, Placeholder);
    assert s1.next.arg == OneCalibrator(b);
    assert [INT8, INT8][1..] == [INT8];
  }

  /** An empty calibrator list with only int8 entries configures no engine,
      so even an unknown build source goes unreported: the header is printed
      and nothing else. */
  lemma EmptyCalibratorListRunsNothing()
    ensures Benchmark(Request("tensorrt", ["int8", "int8"], CalibratorList([]), true, Some("acc")))
         == Report(Some(Header("acc")), [], None)
  {
    var req := Request("tensorrt", ["int8", "int8"], CalibratorList([]), true, Some("acc"));
    assert FirstInvalid(req.dtypes) == None;
    assert ParseAll(req.dtypes) == [INT8, INT8];
    assert [INT8, INT8][1..] == [INT8];
  }

  /** Validation reports the first unsupported dtype and prints nothing,
      even when a supported dtype comes before it. */
  lemma FirstUnsupportedDtypeReported()
    ensures Benchmark(Request("torch", ["fp32", "bf16", "int4"], NoCalibrator, false, None))
         == Report(None, [], Some(UnsupportedDtype("bf16")))
  {
    assert FirstInvalid(["fp32", "bf16", "int4"]) == Some("bf16") by {
      assert ["fp32", "bf16", "int4"][1..] == ["bf16", "int4"];
    }
  }
}
